=== FILE: README.md ===
# HOPE health app: BMI evaluation, symptom lists and video filter in Dafny

This project models the deterministic logic of a React health-tracking web
application:

- the BMI arithmetic of the `useBMIAPI` hook (height in metres, no input guard)
  and of the standalone `BMICalculator` component (height in centimetres,
  input guard), both classifying into four half-open bands
  (below 18.5, 18.5 to 25, 25 to 30, 30 and above) and rounding the reported
  value to one decimal;
- the three panels of the `HealthAssistant` component: the chat transcript,
  the trimmed, duplicate-free symptom list, and the BMI form;
- the `SymptomPredictor` symptom records, deduplicated by name ignoring case
  and edited by id;
- the category filter, badge colours and player selection of `HealthVideos`.

Every handler is a pure function from state to state. Numbers are `real`;
strings are `seq<char>`. Fresh ids (the source takes them from `Date.now()`),
chat replies and analysis results arrive as parameters.

Modules: `Wrappers` (Option), `Text` (JavaScript `trim`, an ASCII case fold),
`Seqs` (`filter` and the facts about it), `Inputs` (a text field with its
parsed value), `Bmi` (the hook and the shared classification),
`BmiCalculator`, `HealthAssistant`, `SymptomPredictor`, `HealthVideos`.

Three facts about the code shape the model. The hook checks nothing, so its
requirement of a positive weight and height is a precondition rather than an
error result. The calculator labels the middle band "Normal Weight" where the
hook says "Normal". The hook rounds with `toFixed(1)` (ties away from zero)
and the calculator with `Math.round` (ties towards +infinity); over exact (real)
values the two agree on every non-negative value.

## Model

| member | source | states |
|---|---|---|
| Bmi.RawBmi | src/hooks/useHealthAPI.ts:253-258 | metric BMI times height² (height in metres) gives back the weight; imperial BMI times height² gives 703 times the weight; a positive weight gives a positive BMI |
| Bmi.Classify | src/hooks/useHealthAPI.ts:262-274 | the band picked contains the BMI in its half-open interval |
| Bmi.ClassifyExactly | src/hooks/useHealthAPI.ts:262-274 | classification is total and exclusive: a BMI is classified into a band if and only if it lies in that band's interval |
| Bmi.ClassifyMonotone | src/hooks/useHealthAPI.ts:262-274 | a larger BMI never yields a lower band |
| Bmi.MathRound1 | src/components/BMICalculator.tsx:64 | `Math.round(x*10)/10` is a multiple of 0.1 within 0.05 of x |
| Bmi.ToFixed1 | src/hooks/useHealthAPI.ts:278 | `parseFloat(x.toFixed(1))` is a multiple of 0.1 within 0.05 of x and keeps the sign of a non-negative x |
| Bmi.RoundingsAgreeOnNonNegative | src/hooks/useHealthAPI.ts:278 | over the reals, the hook's and the calculator's roundings agree on every non-negative value |
| Bmi.RoundingsDifferOnNegativeTies | src/hooks/useHealthAPI.ts:278 | the two roundings differ on a negative tie (-0.25 gives -0.3 and -0.2) |
| Bmi.HookLabel | src/hooks/useHealthAPI.ts:262-274 | every band has a non-empty category string |
| Bmi.HookRisk | src/hooks/useHealthAPI.ts:262-274 | every band has a non-empty risk text |
| Bmi.HookStringsIdentifyBand | src/hooks/useHealthAPI.ts:260-274 | the category label and the risk text are one fixed string per band, different for different bands |
| Bmi.HookCalculate | src/hooks/useHealthAPI.ts:253-278 | for positive weight and height the band contains the unrounded BMI, the reported BMI is the multiple of 0.1 in (raw - 0.05, raw + 0.05], and the risk text is the band's |
| Bmi.HookBandFromUnroundedBmi | src/hooks/useHealthAPI.ts:260-278 | the category comes from the unrounded BMI: 24.96 is reported as 25.0 yet classified Normal |
| BmiCalculator.ToneOf | src/components/BMICalculator.tsx:45-61 | Underweight and Overweight share the warning colour, Normal alone is excellent, Obese alone critical |
| BmiCalculator.CalculatorLabel | src/components/BMICalculator.tsx:45-61 | the middle band is labelled "Normal Weight"; every other label is the hook's |
| BmiCalculator.CalculatorRisk | src/components/BMICalculator.tsx:45-61 | every band has a non-empty risk text |
| BmiCalculator.CalculatorStringsIdentifyBand | src/components/BMICalculator.tsx:45-61 | distinct bands get distinct labels and distinct risk texts |
| BmiCalculator.LabelsAgreeExceptNormal | src/components/BMICalculator.tsx:45-61 | the calculator's labels equal the hook's except on Normal ("Normal Weight") |
| BmiCalculator.CalculatorBmi | src/components/BMICalculator.tsx:30-39 | metric height is in centimetres: BMI times height² is 10000 times the weight; imperial BMI times height² is 703 times the weight |
| BmiCalculator.Evaluate | src/components/BMICalculator.tsx:30-68 | the band contains the unrounded BMI, the reported BMI is within 0.05 of it on the 0.1 grid, risk text and colour are the band's |
| BmiCalculator.CalculatorMatchesHook | src/components/BMICalculator.tsx:32-39 | the calculator at height h cm reports the hook's BMI and band at h/100 m; in imperial units the two agree outright (over the reals) |
| BmiCalculator.Calculate | src/components/BMICalculator.tsx:22-69 | without two parsed values above zero (NaN, zero and negatives refused) the state, previous result included, is unchanged; otherwise the stored result is the evaluation of the two values (band of the unrounded BMI, rounded BMI, the band's risk text and colour) and the fields are kept |
| BmiCalculator.Reset | src/components/BMICalculator.tsx:71-75 | weight and height become the empty, unparsed entry and the result is dropped; the unit stays |
| BmiCalculator.InitialHasNoResult | src/components/BMICalculator.tsx:17-20 | the calculator opens with empty fields and no result, and calculating on them produces none |
| BmiCalculator.CalculateIdempotent | src/components/BMICalculator.tsx:22-69 | calculating twice is calculating once |
| BmiCalculator.CalculateAfterResetIsNoop | src/components/BMICalculator.tsx:22-75 | after a reset calculating produces no result |
| BmiCalculator.WorkedExamples | src/components/BMICalculator.tsx:30-64 | 70 kg/175 cm is 22.9 Normal, 50/160 is 19.5 Normal, 120/170 is 41.5 Obese, 154 lb/69 in is 22.7 Normal, 100/62 is 18.3 Underweight |
| Text.Trim | src/components/HealthAssistant.tsx:86 | the result is the slice of the input between its leading and trailing white space, every stripped character is JavaScript white space, and the result neither starts nor ends with it |
| Text.Lower | src/components/SymptomPredictor.tsx:40 | the result has the input's length; each capital A to Z becomes its small letter and every other character stays |
| Seqs.Filter | src/components/HealthVideos.tsx:103 | every kept entry passes the test and every passing entry is kept; the result is a subsequence of the input (order kept) and its multiset lies within the input's, so nothing is added or repeated |
| Text.TrimIdempotent | src/components/HealthAssistant.tsx:86-87 | trimming an already trimmed string changes nothing |
| Text.BlankIffAllSpace | src/components/HealthAssistant.tsx:58 | `!s.trim()` holds exactly when every character is white space |
| HealthAssistant.SendMessage | src/components/HealthAssistant.tsx:57-68 | blank input or a pending reply changes nothing; otherwise the transcript grows by exactly one user message carrying the untrimmed input, earlier messages kept, the input cleared, loading raised |
| HealthAssistant.ReceiveReply | src/components/HealthAssistant.tsx:70-81 | a reply is appended as one AI message, a failed request appends nothing; earlier messages are kept and loading ends |
| HealthAssistant.SendIsNotRepeated | src/components/HealthAssistant.tsx:58-68 | a second send before the reply changes nothing |
| HealthAssistant.InitialChatUserMessagesNonBlank | src/components/HealthAssistant.tsx:21-29 | the opening transcript, the greeting alone, meets the non-blank invariant |
| HealthAssistant.ChatKeepsUserMessagesNonBlank | src/components/HealthAssistant.tsx:58-78 | every user message in the transcript stays non-blank under send and reply |
| HealthAssistant.AddSymptom | src/components/HealthAssistant.tsx:85-90 | a non-blank, unlisted trimmed input is appended and the input cleared; a blank or already listed one changes nothing |
| HealthAssistant.RemoveSymptom | src/components/HealthAssistant.tsx:92-94 | every copy of the argument is dropped, every other entry kept with its multiplicity and in order |
| HealthAssistant.InitialSymptomsWellFormed | src/components/HealthAssistant.tsx:33-34 | the opening symptom list is well formed |
| HealthAssistant.AddSymptomKeepsWellFormed | src/components/HealthAssistant.tsx:85-90 | adding keeps the list free of duplicates and of untrimmed or empty entries |
| HealthAssistant.RemoveSymptomKeepsWellFormed | src/components/HealthAssistant.tsx:92-94 | removing keeps the list free of duplicates and of untrimmed or empty entries |
| HealthAssistant.RemoveUndoesAdd | src/components/HealthAssistant.tsx:85-94 | removing the symptom just added restores the list |
| HealthAssistant.AnalyzeSymptoms | src/components/HealthAssistant.tsx:96-105 | an empty list or a failed request changes nothing; otherwise the analysis is replaced; the list is never touched |
| HealthAssistant.CalculateBmiAsWritten | src/components/HealthAssistant.tsx:108-117 | as written: only an empty field is refused; otherwise the hook's arithmetic is stored for whatever numbers the fields hold |
| HealthAssistant.AsWrittenAgreesWhenAccepted | src/components/HealthAssistant.tsx:108-117 | on positive values the code as written and the corrected handler store the same response |
| HealthAssistant.GuardAsWrittenAdmitsNegativeWeight | src/components/HealthAssistant.tsx:108-112 | as written, weight "-70" at 1.75 m is stored as BMI -22.9, Underweight, where the corrected handler stores nothing |
| HealthAssistant.CalculateBmi | src/components/HealthAssistant.tsx:108-117 | with the guard corrected as in ## Findings: an empty field changes nothing, nor does a non-positive value; otherwise the hook's response for the two values is stored and the fields are kept |
| HealthAssistant.ResetBmi | src/components/HealthAssistant.tsx:119-123 | weight and height become the empty, unparsed entry and the result is dropped; the unit stays |
| HealthAssistant.InitialBmiHasNoResult | src/components/HealthAssistant.tsx:38-41 | the BMI form opens without a result, and calculating on its empty fields produces none |
| HealthAssistant.CalculateAfterResetIsNoop | src/components/HealthAssistant.tsx:108-123 | after a reset calculating does nothing |
| SymptomPredictor.AddSymptom | src/components/SymptomPredictor.tsx:39-49 | an empty name or one listed ignoring case changes nothing; otherwise a symptom with the fresh id and severity 5 is appended at the end and the input cleared |
| SymptomPredictor.RemoveSymptom | src/components/SymptomPredictor.tsx:51-53 | no entry with the id survives; every other entry is kept with its multiplicity and in order |
| SymptomPredictor.RemoveSymptomKeepsMultiplicity | src/components/SymptomPredictor.tsx:51-53 | every record with another id survives exactly as often as it occurred; records with the id do not survive |
| SymptomPredictor.SetSeverity | src/components/SymptomPredictor.tsx:55-58 | the mapped list has the same length, ids and names; severities change exactly at the matching id |
| SymptomPredictor.UpdateSeverity | src/components/SymptomPredictor.tsx:55-59 | length, ids and names are kept; entries with another id are unchanged; matching entries get the new severity |
| SymptomPredictor.InitialPredictorDistinct | src/components/SymptomPredictor.tsx:28 | the opening list meets both distinctness invariants |
| SymptomPredictor.AddKeepsCaseDistinct | src/components/SymptomPredictor.tsx:39-49 | adding keeps symptom names distinct ignoring case |
| SymptomPredictor.AddKeepsIdsDistinct | src/components/SymptomPredictor.tsx:41-46 | adding under an unused id keeps ids distinct |
| SymptomPredictor.RemoveKeepsDistinct | src/components/SymptomPredictor.tsx:51-53 | removing keeps names distinct ignoring case and ids distinct |
| SymptomPredictor.UpdateKeepsDistinct | src/components/SymptomPredictor.tsx:55-58 | changing a severity keeps names distinct ignoring case and ids distinct |
| SymptomPredictor.SeverityLastWins | src/components/SymptomPredictor.tsx:55-58 | a later severity for an id overrides an earlier one |
| SymptomPredictor.RemoveForgetsSeverity | src/components/SymptomPredictor.tsx:51-58 | removing an id after changing its severity is the same as removing it directly |
| SymptomPredictor.StartAnalysis | src/components/SymptomPredictor.tsx:61-64 | an empty list changes nothing; otherwise only the analysing flag is raised |
| SymptomPredictor.FinishAnalysis | src/components/SymptomPredictor.tsx:109-110 | the predictions are shown and the flag lowered; the list is kept |
| SymptomPredictor.SeverityColor | src/components/SymptomPredictor.tsx:120-127 | low, medium, high map to the status at the same position: good, warning, critical |
| SymptomPredictor.SeverityColorOrderPreserving | src/components/SymptomPredictor.tsx:120-127 | low, medium, high map to good, warning, critical: order-preserving and one-to-one |
| HealthVideos.FilteredVideos | src/components/HealthVideos.tsx:101-103 | 'all' returns the catalogue unchanged; any other category returns an order-preserving subsequence in which each video of that category occurs as often as in the catalogue and no other video occurs |
| HealthVideos.InitialViewerShowsAll | src/components/HealthVideos.tsx:21-22 | the page opens on the whole catalogue with no video playing |
| HealthVideos.UnusedCategorySelectsNothing | src/components/HealthVideos.tsx:103 | a category no video has yields an empty list |
| HealthVideos.FilteredVideosKeepMultiplicity | src/components/HealthVideos.tsx:103 | each matching video occurs as often as in the catalogue, any other not at all |
| HealthVideos.SelectCategory | src/components/HealthVideos.tsx:141 | the filter changes and the open video does not |
| HealthVideos.CategoryColor | src/components/HealthVideos.tsx:105-113 | exactly the strings other than fitness, nutrition, mental and heart get the secondary colour |
| HealthVideos.CategoryColorDefault | src/components/HealthVideos.tsx:105-113 | exactly the categories other than fitness, nutrition, mental and heart, 'all' included, get the default colour |
| HealthVideos.CategoryColorsDistinct | src/components/HealthVideos.tsx:105-113 | the four known categories get four different colours |
| HealthVideos.PlayVideo | src/components/HealthVideos.tsx:115-117 | the selection becomes the given video; the category stays |
| HealthVideos.CloseVideo | src/components/HealthVideos.tsx:119-121 | the selection is cleared; the category stays |
| HealthVideos.CloseUndoesPlay | src/components/HealthVideos.tsx:115-121 | closing after playing is closing; playing the same video twice is playing it once |

## Findings

| source | as written | input that shows it | evidently intended | confidence | as-written member | corrected member |
|---|---|---|---|---|---|---|
| src/components/HealthAssistant.tsx:109 | `handleCalculateBMI` only checks that both texts are non-empty, and the hook it calls checks nothing | weight "-70" kg, height "1.75" m, metric: BMI about -22.9, reported as "Underweight" with the malnutrition risk text (with a positive weight, a height of "0" gives +Infinity, "Obese") | refuse values that are not numbers above zero, as the standalone calculator does at src/components/BMICalculator.tsx:26 | medium, not executed | HealthAssistant.GuardAsWrittenAdmitsNegativeWeight | HealthAssistant.CalculateBmi |

## Left out

- Rendering, styling, layout-only components, routing and the page shells: presentation without behaviour.
- Loading and error flags of the symptom and BMI hooks, `setTimeout` latency and the Promise wrappers; the chat hook's loading flag is kept in the chat state because the send handler reads it.
- Floating point: the arithmetic is over `real`; NaN appears only as a failed parse, and Infinity (a zero height reaching the hook) is not representable. `toFixed` is modelled on the exact value, not on its binary double; on doubles `toFixed(1)` and `Math.round(bmi * 10) / 10` can differ by 0.1 even for a positive BMI (a BMI written 24.95 is stored just below it, so the hook gives 24.9 and the calculator 25.0), which the real-valued model does not show.
- Parsing: `parseFloat` and `parseInt` are not modelled; a text field carries its parsed value.
- HealthAssistant.CalculateBmiAsWritten: NaN and a zero height are outside the real numbers, so the code as written is modelled only for numeric fields with a non-zero height. Outside that domain the code gives NaN, +Infinity or -Infinity: NaN (0/0) and +Infinity (a positive weight over a zero height) fail every comparison and are reported as Obese, while -Infinity (a negative weight over a zero height) is below 18.5 and is reported as Underweight.
- Text.Lower: folds only the ASCII letters A to Z, where `toLowerCase` folds all of Unicode, so names differing only in non-ASCII case count as different.
- Ids and timestamps from `Date.now()` and `new Date()` are parameters; message timestamps are dropped.
- The chat replies (chosen with `Math.random`), the mock symptom conditions, the mock predictions and the six catalogue videos are data, passed in as parameters.
- HealthAssistant.AnalyzeSymptoms: does not model the analysis hook's own loading flag, which only disables the button.
- SymptomPredictor.StartAnalysis: the fixed predictions the timer delivers are a parameter of FinishAnalysis.
- `addToCalendar` only logs; the description text box, the unit toggles and typing into the fields are plain setters.
- CalendarView, ChatBot, Dashboard, HealthHub and the settings page are not part of this model.

=== FILE: bmi.dfy ===
/**
 * The BMI arithmetic shared by the application: the two unit conventions, the
 * four-band classification, the two one-decimal roundings, and the
 * `calculateBMI` function of the `useBMIAPI` hook.
 */
module Bmi {

  datatype Unit = Metric | Imperial

  datatype Band = Underweight | Normal | Overweight | Obese

  /** The lower edge of the Normal, Overweight and Obese bands. */
  const NormalFrom: real := 18.5
  const OverweightFrom: real := 25.0
  const ObeseFrom: real := 30.0

  /** The conversion factor of the imperial formula (pounds per square inch to kg/m²). */
  const ImperialFactor: real := 703.0

  /** The interval of BMI values each band covers; the intervals are half-open. */
  predicate InBand(bmi: real, b: Band) {
    match b
    case Underweight => bmi < NormalFrom
    case Normal => NormalFrom <= bmi < OverweightFrom
    case Overweight => OverweightFrom <= bmi < ObeseFrom
    case Obese => ObeseFrom <= bmi
  }

  /** Position of a band on the scale from lightest to heaviest. */
  function Rank(b: Band): nat {
    match b
    case Underweight => 0
    case Normal => 1
    case Overweight => 2
    case Obese => 3
  }

  /** The threshold chain of both calculators: the first band whose upper edge lies above `bmi`. */
  function Classify(bmi: real): (b: Band)
    ensures InBand(bmi, b)
  {
    if bmi < NormalFrom then Underweight
    else if bmi < OverweightFrom then Normal
    else if bmi < ObeseFrom then Overweight
    else Obese
  }

  /** The bands do not overlap: a value lies in exactly one band, the one `Classify` picks. */
  lemma ClassifyExactly(bmi: real, b: Band)
    ensures Classify(bmi) == b <==> InBand(bmi, b)
  {
  }

  /** A heavier BMI never falls in a lighter band. */
  lemma ClassifyMonotone(x: real, y: real)
    requires x <= y
    ensures Rank(Classify(x)) <= Rank(Classify(y))
  {
  }

  /** The unrounded BMI: kg / m² for metric, (lb / in²) * 703 for imperial.
      Height is taken as given: in metres for metric. */
  function RawBmi(weight: real, height: real, unit: Unit): (bmi: real)
    requires height != 0.0
    ensures bmi * (height * height) == if unit == Metric then weight else weight * ImperialFactor
    ensures weight > 0.0 ==> bmi > 0.0
  {
    match unit
    case Metric => weight / (height * height)
    case Imperial => (weight / (height * height)) * ImperialFactor
  }

  /** `Math.round(x * 10) / 10`: to one decimal, a tie going towards +infinity. */
  function MathRound1(x: real): (r: real)
    ensures x - 0.05 < r <= x + 0.05
    ensures (r * 10.0).Floor as real == r * 10.0
  {
    (x * 10.0 + 0.5).Floor as real / 10.0
  }

  /** `parseFloat(x.toFixed(1))`: to one decimal, a tie going away from zero
      (section 21.1.3.3 of ECMA-262 rounds the magnitude and keeps the sign). */
  function ToFixed1(x: real): (r: real)
    ensures x - 0.05 <= r <= x + 0.05
    ensures x >= 0.0 ==> x - 0.05 < r
    ensures x < 0.0 ==> r < x + 0.05
    ensures (r * 10.0).Floor as real == r * 10.0
    ensures x >= 0.0 ==> r >= 0.0
  {
    if x < 0.0 then
      var m := MathRound1(-x);
      var k := (m * 10.0).Floor;
      assert m * 10.0 == k as real;
      assert (-m) * 10.0 == -(m * 10.0);
      assert ((-k) as real).Floor == -k;
      -m
    else MathRound1(x)
  }

  /** The two roundings agree on every non-negative value, so on every BMI of a valid measurement. */
  lemma RoundingsAgreeOnNonNegative(x: real)
    requires x >= 0.0
    ensures ToFixed1(x) == MathRound1(x)
  {
  }

  /** They differ on negative ties: `toFixed` gives -0.3 for -0.25 where `Math.round` gives -0.2. */
  lemma RoundingsDifferOnNegativeTies()
    ensures ToFixed1(-0.25) == -0.3
    ensures MathRound1(-0.25) == -0.2
  {
    assert (0.25 * 10.0 + 0.5).Floor == 3;
    assert (-0.25 * 10.0 + 0.5).Floor == -2;
  }

  /** The category strings the hook reports. */
  function HookLabel(b: Band): (text: string)
    ensures text != ""
  {
    match b
    case Underweight => "Underweight"
    case Normal => "Normal"
    case Overweight => "Overweight"
    case Obese => "Obese"
  }

  /** The risk text the hook reports, one fixed string per band. */
  function HookRisk(b: Band): (risk: string)
    ensures risk != ""
  {
    match b
    case Underweight => "Increased risk of malnutrition"
    case Normal => "Low risk"
    case Overweight => "Increased risk of health issues"
    case Obese => "High risk of health complications"
  }

  /** Distinct bands get distinct labels and distinct risk texts, so each
      string identifies its band. */
  lemma HookStringsIdentifyBand(a: Band, b: Band)
    ensures HookLabel(a) == HookLabel(b) <==> a == b
    ensures HookRisk(a) == HookRisk(b) <==> a == b
  {
  }

  /** The hook's response `{ bmi, category, risk }`; `category` is shown as `HookLabel(category)`. */
  datatype HookResponse = HookResponse(bmi: real, category: Band, risk: string)

  /** `calculateBMI` of `useBMIAPI`: the band comes from the unrounded BMI, only
      the reported value is rounded. The hook itself checks nothing; its
      callers must supply positive values. */
  function HookCalculate(weight: real, height: real, unit: Unit): (r: HookResponse)
    requires weight > 0.0 && height > 0.0
    ensures var raw := RawBmi(weight, height, unit);
      && InBand(raw, r.category)
      && raw - 0.05 < r.bmi <= raw + 0.05
      && (r.bmi * 10.0).Floor as real == r.bmi * 10.0
    ensures r.risk == HookRisk(r.category)
  {
    var raw := RawBmi(weight, height, unit);
    var band := Classify(raw);
    HookResponse(ToFixed1(raw), band, HookRisk(band))
  }

  /** The hook's band depends only on the unrounded value: 24.96 kg at 1 m is
      reported as 25 yet stays Normal, while 25 itself would be Overweight. */
  lemma HookBandFromUnroundedBmi()
    ensures HookCalculate(24.96, 1.0, Metric).bmi == 25.0
    ensures HookCalculate(24.96, 1.0, Metric).category == Normal
    ensures Classify(25.0) == Overweight
  {
    assert (24.96 * 10.0 + 0.5).Floor == 250;
  }
}

=== FILE: bmi_calculator.dfy ===
/**
 * The standalone `BMICalculator` component: metric height in centimetres,
 * an input guard, `Math.round` to one decimal, and a colour per band.
 */
module BmiCalculator {
  import opened Wrappers
  import opened Inputs
  import opened Bmi

  /** The colour tokens of the result: `--health-warning`, `--health-excellent`, `--health-critical`. */
  datatype Tone = Warning | Excellent | Critical

  /** The calculator's result `{ bmi, category, healthRisk, color }`;
      `category` is shown as `CalculatorLabel(category)`. */
  datatype CalculatorResult = CalculatorResult(bmi: real, category: Band, healthRisk: string, color: Tone)

  datatype CalculatorState = CalculatorState(weight: Entry, height: Entry, unit: Unit, result: Option<CalculatorResult>)

  /** The component's first render: empty fields, metric units, no result. */
  const Initial: CalculatorState := CalculatorState(Cleared, Cleared, Metric, None)

  /** The category strings the calculator shows; only Normal differs from the hook's. */
  function CalculatorLabel(b: Band): (text: string)
    ensures b != Normal ==> text == HookLabel(b)
    ensures b == Normal ==> text == "Normal Weight"
  {
    match b
    case Underweight => "Underweight"
    case Normal => "Normal Weight"
    case Overweight => "Overweight"
    case Obese => "Obese"
  }

  function CalculatorRisk(b: Band): (risk: string)
    ensures risk != ""
  {
    match b
    case Underweight => "May indicate nutritional deficiency"
    case Normal => "Low risk of health complications"
    case Overweight => "Increased risk of health issues"
    case Obese => "High risk of serious health complications"
  }

  /** The colour of a band: only the bands next to Normal share one. */
  function ToneOf(b: Band): (t: Tone)
    ensures t == Warning <==> b == Underweight || b == Overweight
    ensures t == Excellent <==> b == Normal
    ensures t == Critical <==> b == Obese
  {
    match b
    case Underweight => Warning
    case Normal => Excellent
    case Overweight => Warning
    case Obese => Critical
  }

  /** Distinct bands get distinct labels and distinct risk texts. */
  lemma CalculatorStringsIdentifyBand(a: Band, b: Band)
    ensures CalculatorLabel(a) == CalculatorLabel(b) <==> a == b
    ensures CalculatorRisk(a) == CalculatorRisk(b) <==> a == b
  {
  }

  /** The labels differ from the hook's on Normal alone. */
  lemma LabelsAgreeExceptNormal(b: Band)
    ensures CalculatorLabel(b) == HookLabel(b) <==> b != Normal
  {
  }

  /** The calculator's unrounded BMI: metric height is in centimetres and is
      divided by 100 before squaring. */
  function CalculatorBmi(weight: real, height: real, unit: Unit): (bmi: real)
    requires height > 0.0
    ensures unit == Metric ==> bmi * (height * height) == weight * 10000.0
    ensures unit == Imperial ==> bmi * (height * height) == weight * ImperialFactor
  {
    match unit
    case Metric =>
      var metres := height / 100.0;
      weight / (metres * metres)
    case Imperial =>
      (weight / (height * height)) * ImperialFactor
  }

  /** The result for an accepted measurement: band from the unrounded BMI,
      reported BMI within 0.05 of it on the 0.1 grid, text and colour fixed by the band. */
  function Evaluate(weight: real, height: real, unit: Unit): (r: CalculatorResult)
    requires weight > 0.0 && height > 0.0
    ensures var raw := CalculatorBmi(weight, height, unit);
      && InBand(raw, r.category)
      && raw - 0.05 < r.bmi <= raw + 0.05
      && (r.bmi * 10.0).Floor as real == r.bmi * 10.0
    ensures r.healthRisk == CalculatorRisk(r.category) && r.color == ToneOf(r.category)
  {
    var raw := CalculatorBmi(weight, height, unit);
    var band := Classify(raw);
    CalculatorResult(MathRound1(raw), band, CalculatorRisk(band), ToneOf(band))
  }

  /** The calculator at height `h` centimetres gives the hook's BMI and band at
      `h / 100` metres; in imperial units the two agree outright. */
  lemma CalculatorMatchesHook(weight: real, height: real, unit: Unit)
    requires weight > 0.0 && height > 0.0
    ensures var hookHeight := if unit == Metric then height / 100.0 else height;
      && Evaluate(weight, height, unit).bmi == HookCalculate(weight, hookHeight, unit).bmi
      && Evaluate(weight, height, unit).category == HookCalculate(weight, hookHeight, unit).category
  {
    var hookHeight := if unit == Metric then height / 100.0 else height;
    assert CalculatorBmi(weight, height, unit) == RawBmi(weight, hookHeight, unit);
    RoundingsAgreeOnNonNegative(RawBmi(weight, hookHeight, unit));
  }

  /** `calculateBMI`: a result only when both parsed values are numbers above
      zero; otherwise nothing changes, the previous result included. */
  function Calculate(s: CalculatorState): (r: CalculatorState)
    ensures r.weight == s.weight && r.height == s.height && r.unit == s.unit
    ensures !(Positive(s.weight.value) && Positive(s.height.value)) ==> r == s
    ensures Positive(s.weight.value) && Positive(s.height.value) ==>
      && r.result.Some?
      && var raw := CalculatorBmi(s.weight.value.v, s.height.value.v, s.unit);
      && InBand(raw, r.result.value.category)
      && raw - 0.05 < r.result.value.bmi <= raw + 0.05
      && r.result == Some(Evaluate(s.weight.value.v, s.height.value.v, s.unit))
  {
    if !(Positive(s.weight.value) && Positive(s.height.value)) then s
    else s.(result := Some(Evaluate(s.weight.value.v, s.height.value.v, s.unit)))
  }

  /** `resetCalculator`: both fields and the result are cleared; the unit stays. */
  function Reset(s: CalculatorState): (r: CalculatorState)
    ensures r.weight == Cleared && r.height == Cleared && r.result == None
    ensures r.unit == s.unit
  {
    s.(weight := Cleared, height := Cleared, result := None)
  }

  /** The calculator opens without a result and calculating on its empty fields produces none. */
  lemma InitialHasNoResult()
    ensures Initial.result == None
    ensures Calculate(Initial) == Initial
  {
  }

  /** Recalculating without editing the fields changes nothing. */
  lemma CalculateIdempotent(s: CalculatorState)
    ensures Calculate(Calculate(s)) == Calculate(s)
  {
  }

  /** After a reset, calculating produces no result until the fields are filled in again. */
  lemma CalculateAfterResetIsNoop(s: CalculatorState)
    ensures Calculate(Reset(s)) == Reset(s)
    ensures Calculate(Reset(s)).result == None
  {
  }

  /** The worked examples: 70 kg at 175 cm, 50 kg at 160 cm, 120 kg at 170 cm,
      154 lb at 69 in and 100 lb at 62 in. */
  lemma WorkedExamples()
    ensures Evaluate(70.0, 175.0, Metric).bmi == 22.9 && Evaluate(70.0, 175.0, Metric).category == Normal
    ensures Evaluate(50.0, 160.0, Metric).bmi == 19.5 && Evaluate(50.0, 160.0, Metric).category == Normal
    ensures Evaluate(120.0, 170.0, Metric).bmi == 41.5 && Evaluate(120.0, 170.0, Metric).category == Obese
    ensures Evaluate(154.0, 69.0, Imperial).bmi == 22.7 && Evaluate(154.0, 69.0, Imperial).category == Normal
    ensures Evaluate(100.0, 62.0, Imperial).bmi == 18.3 && Evaluate(100.0, 62.0, Imperial).category == Underweight
  {
    assert (CalculatorBmi(70.0, 175.0, Metric) * 10.0 + 0.5).Floor == 229;
    assert (CalculatorBmi(50.0, 160.0, Metric) * 10.0 + 0.5).Floor == 195;
    assert (CalculatorBmi(120.0, 170.0, Metric) * 10.0 + 0.5).Floor == 415;
    assert (CalculatorBmi(154.0, 69.0, Imperial) * 10.0 + 0.5).Floor == 227;
    assert (CalculatorBmi(100.0, 62.0, Imperial) * 10.0 + 0.5).Floor == 183;
  }
}

=== FILE: health_assistant.dfy ===
/**
 * The `HealthAssistant` component as three independent panels of state:
 * the chat transcript, the symptom list, and the BMI form backed by the
 * `useBMIAPI` hook. Every handler is a function from state to state; replies,
 * analyses and fresh ids, which arrive asynchronously or from the clock, are
 * parameters.
 */
module HealthAssistant {
  import opened Wrappers
  import opened Text
  import opened Seqs
  import opened Inputs
  import opened Bmi

  // ---------------------------------------------------------------- chat

  datatype Sender = User | Ai

  datatype Message = Message(id: string, sender: Sender, text: string)

  /** The transcript, the text box, and the chat hook's loading flag. */
  datatype Chat = Chat(messages: seq<Message>, input: string, loading: bool)

  const Greeting: Message := Message("1", Ai, "Hello! I'm your HOPE Health Assistant. I can help you with health questions, analyze symptoms, calculate BMI, and provide personalized health insights. How can I assist you today?")

  const InitialChat: Chat := Chat([Greeting], "", false)

  /** A message the user sent has some non-blank text. */
  predicate SaidSomething(m: Message) {
    m.sender == User ==> Trim(m.text) != ""
  }

  /** Every message the user sent had some non-blank text. */
  ghost predicate UserMessagesNonBlank(c: Chat) {
    All(c.messages, SaidSomething)
  }

  /** `handleSendMessage` up to the request: nothing happens on blank input or
      while a reply is loading; otherwise the untrimmed input becomes a user
      message at the end of the transcript, the box is cleared and the request starts. */
  function SendMessage(c: Chat, id: string): (r: Chat)
    ensures Trim(c.input) == "" || c.loading ==> r == c
    ensures Trim(c.input) != "" && !c.loading ==>
      && |r.messages| == |c.messages| + 1
      && r.messages[..|c.messages|] == c.messages
      && r.messages[|c.messages|] == Message(id, User, c.input)
      && r.input == ""
      && r.loading
  {
    if Trim(c.input) == "" || c.loading then c
    else Chat(c.messages + [Message(id, User, c.input)], "", true)
  }

  /** The awaited reply: on success the reply text is appended as an AI
      message; a failed request appends nothing. Either way loading ends. */
  function ReceiveReply(c: Chat, id: string, reply: Option<string>): (r: Chat)
    ensures !r.loading && r.input == c.input
    ensures |c.messages| <= |r.messages| && r.messages[..|c.messages|] == c.messages
    ensures reply.None? ==> r.messages == c.messages
    ensures reply.Some? ==> r.messages == c.messages + [Message(id, Ai, reply.value)]
  {
    match reply
    case None => c.(loading := false)
    case Some(text) => c.(messages := c.messages + [Message(id, Ai, text)], loading := false)
  }

  /** A send that went through cannot be repeated before its reply arrives. */
  lemma SendIsNotRepeated(c: Chat, a: string, b: string)
    ensures SendMessage(SendMessage(c, a), b) == SendMessage(c, a)
  {
    if Trim(c.input) != "" && !c.loading {
      BlankIffAllSpace("");
    }
  }

  /** The opening transcript holds only the greeting, so it meets the invariant. */
  lemma InitialChatUserMessagesNonBlank()
    ensures UserMessagesNonBlank(InitialChat)
  {
  }

  /** Sending and receiving keep every user message non-blank. */
  lemma ChatKeepsUserMessagesNonBlank(c: Chat, id: string, reply: Option<string>)
    requires UserMessagesNonBlank(c)
    ensures UserMessagesNonBlank(SendMessage(c, id))
    ensures UserMessagesNonBlank(ReceiveReply(c, id, reply))
  {
    if Trim(c.input) != "" && !c.loading {
      AppendKeepsAll(c.messages, Message(id, User, c.input), SaidSomething);
    }
    if reply.Some? {
      AppendKeepsAll(c.messages, Message(id, Ai, reply.value), SaidSomething);
    }
  }

  // ------------------------------------------------------------ symptoms

  /** One condition of the symptom hook's response. */
  datatype Condition = Condition(name: string, probability: real, severity: string)

  datatype SymptomPanel = SymptomPanel(symptoms: seq<string>, input: string, analysis: Option<seq<Condition>>)

  const InitialSymptoms: SymptomPanel := SymptomPanel([], "", None)

  function Differ(a: string, b: string): bool {
    a != b
  }

  /** An entry as `addSymptom` stores it: trimmed and non-empty. */
  predicate Tidy(x: string) {
    x != "" && Trim(x) == x
  }

  /** The list holds no duplicates, and every entry is trimmed and non-empty. */
  ghost predicate WellFormed(xs: seq<string>) {
    Pairwise(xs, Differ) && All(xs, Tidy)
  }

  /** `addSymptom`: the trimmed input is appended and the box cleared when it
      is non-blank and not yet listed; otherwise nothing changes. */
  function AddSymptom(p: SymptomPanel): (r: SymptomPanel)
    ensures var t := Trim(p.input);
      t != "" && t !in p.symptoms ==>
        && r.symptoms == p.symptoms + [t]
        && r.input == ""
        && r.analysis == p.analysis
    ensures Trim(p.input) == "" || Trim(p.input) in p.symptoms ==> r == p
  {
    var t := Trim(p.input);
    if t != "" && t !in p.symptoms then p.(symptoms := p.symptoms + [t], input := "") else p
  }

  /** `removeSymptom`: every copy of `x` goes, every other entry stays, in order. */
  function RemoveSymptom(p: SymptomPanel, x: string): (r: SymptomPanel)
    ensures x !in r.symptoms
    ensures multiset(r.symptoms) == multiset(p.symptoms)[x := 0]
    ensures IsSubsequence(r.symptoms, p.symptoms)
    ensures r.input == p.input && r.analysis == p.analysis
  {
    var keep := (y: string) => y != x;
    FilterMultiset(p.symptoms, keep, x);
    p.(symptoms := Filter(p.symptoms, keep))
  }

  /** The panel opens with an empty list, which is well formed. */
  lemma InitialSymptomsWellFormed()
    ensures WellFormed(InitialSymptoms.symptoms)
  {
  }

  /** Adding keeps the list well formed; this rests on trimming being idempotent. */
  lemma AddSymptomKeepsWellFormed(p: SymptomPanel)
    requires WellFormed(p.symptoms)
    ensures WellFormed(AddSymptom(p).symptoms)
  {
    var t := Trim(p.input);
    if t != "" && t !in p.symptoms {
      AppendKeepsPairwise(p.symptoms, t, Differ);
      TrimIdempotent(p.input);
      AppendKeepsAll(p.symptoms, t, Tidy);
    }
  }

  /** Removing keeps the list well formed. */
  lemma RemoveSymptomKeepsWellFormed(p: SymptomPanel, x: string)
    requires WellFormed(p.symptoms)
    ensures WellFormed(RemoveSymptom(p, x).symptoms)
  {
    FilterKeepsPairwise(p.symptoms, (y: string) => y != x, Differ);
    FilterKeepsAll(p.symptoms, (y: string) => y != x, Tidy);
  }

  /** Removing the symptom just added gives back the list as it was. */
  lemma RemoveUndoesAdd(p: SymptomPanel)
    requires Trim(p.input) != "" && Trim(p.input) !in p.symptoms
    ensures RemoveSymptom(AddSymptom(p), Trim(p.input)).symptoms == p.symptoms
  {
    var t := Trim(p.input);
    var keep := (y: string) => y != t;
    FilterAppend(p.symptoms, [t], keep);
    FilterAllPass(p.symptoms, keep);
  }

  /** `handleAnalyzeSymptoms`: nothing happens on an empty list; otherwise the
      awaited analysis, if the request succeeded, replaces the previous one. */
  function AnalyzeSymptoms(p: SymptomPanel, outcome: Option<seq<Condition>>): (r: SymptomPanel)
    ensures r.symptoms == p.symptoms && r.input == p.input
    ensures |p.symptoms| == 0 || outcome.None? ==> r == p
    ensures |p.symptoms| > 0 && outcome.Some? ==> r.analysis == outcome
  {
    if |p.symptoms| == 0 then p
    else match outcome
      case None => p
      case Some(_) => p.(analysis := outcome)
  }

  // ----------------------------------------------------------------- BMI

  /** The BMI tab: height in metres for metric, as the hook expects. */
  datatype BmiForm = BmiForm(weight: Entry, height: Entry, unit: Unit, result: Option<HookResponse>)

  const InitialBmi: BmiForm := BmiForm(Cleared, Cleared, Metric, None)

  /** The guard of `handleCalculateBMI` as written: both texts non-empty. It
      lets through entries such as "-70" or "0" that the hook cannot assess. */
  predicate GuardAsWritten(f: BmiForm) {
    f.weight.text != "" && f.height.text != ""
  }

  /** The guard as evidently intended: the written one, and both parsed
      values above zero as the standalone calculator demands. */
  predicate Accepts(f: BmiForm) {
    GuardAsWritten(f) && Positive(f.weight.value) && Positive(f.height.value)
  }

  /** `handleCalculateBMI` as written: only empty text is refused, and the
      hook's arithmetic runs on whatever numbers the fields hold. NaN and a
      zero height, which give NaN or Infinity, lie outside the real numbers. */
  function CalculateBmiAsWritten(f: BmiForm): (r: BmiForm)
    requires GuardAsWritten(f) ==> f.weight.value.Num? && f.height.value.Num? && f.height.value.v != 0.0
    ensures r.weight == f.weight && r.height == f.height && r.unit == f.unit
    ensures !GuardAsWritten(f) ==> r == f
    ensures GuardAsWritten(f) ==>
      && r.result.Some?
      && var raw := RawBmi(f.weight.value.v, f.height.value.v, f.unit);
      && InBand(raw, r.result.value.category)
      && raw - 0.05 <= r.result.value.bmi <= raw + 0.05
      && (r.result.value.bmi * 10.0).Floor as real == r.result.value.bmi * 10.0
      && (raw >= 0.0 ==> raw - 0.05 < r.result.value.bmi)
      && (raw < 0.0 ==> r.result.value.bmi < raw + 0.05)
      && r.result.value.risk == HookRisk(r.result.value.category)
  {
    if !GuardAsWritten(f) then f
    else
      var raw := RawBmi(f.weight.value.v, f.height.value.v, f.unit);
      var band := Classify(raw);
      f.(result := Some(HookResponse(ToFixed1(raw), band, HookRisk(band))))
  }

  /** On every form the intended guard accepts, the code as written and the
      corrected handler store the same response. */
  lemma AsWrittenAgreesWhenAccepted(f: BmiForm)
    requires Accepts(f)
    ensures CalculateBmiAsWritten(f) == CalculateBmi(f)
  {
  }

  /** A negative weight passes the written guard, and the code as written then
      stores a negative BMI of -22.9 in the Underweight band, which the
      corrected handler refuses. */
  lemma GuardAsWrittenAdmitsNegativeWeight()
    ensures var f := BmiForm(Entry("-70", Num(-70.0)), Entry("1.75", Num(1.75)), Metric, None);
      && GuardAsWritten(f)
      && !Accepts(f)
      && CalculateBmiAsWritten(f).result == Some(HookResponse(-22.9, Underweight, HookRisk(Underweight)))
      && CalculateBmi(f).result == None
  {
    var raw := RawBmi(-70.0, 1.75, Metric);
    assert (-raw * 10.0 + 0.5).Floor == 229;
  }

  /** `handleCalculateBMI` with the intended guard: nothing happens unless both
      fields hold positive numbers; then the hook's response becomes the result. */
  function CalculateBmi(f: BmiForm): (r: BmiForm)
    ensures r.weight == f.weight && r.height == f.height && r.unit == f.unit
    ensures !Accepts(f) ==> r == f
    ensures f.weight.text == "" || f.height.text == "" ==> r == f
    ensures Accepts(f) ==>
      && r.result.Some?
      && var raw := RawBmi(f.weight.value.v, f.height.value.v, f.unit);
      && InBand(raw, r.result.value.category)
      && raw - 0.05 < r.result.value.bmi <= raw + 0.05
      && r.result.value.risk == HookRisk(r.result.value.category)
      && r.result == Some(HookCalculate(f.weight.value.v, f.height.value.v, f.unit))
  {
    if !Accepts(f) then f
    else f.(result := Some(HookCalculate(f.weight.value.v, f.height.value.v, f.unit)))
  }

  /** `resetBMI`: both fields and the result are cleared; the unit stays. */
  function ResetBmi(f: BmiForm): (r: BmiForm)
    ensures r.weight == Cleared && r.height == Cleared && r.result == None
    ensures r.unit == f.unit
  {
    f.(weight := Cleared, height := Cleared, result := None)
  }

  /** The form opens without a result, and calculating on its empty fields produces none. */
  lemma InitialBmiHasNoResult()
    ensures InitialBmi.result == None
    ensures CalculateBmi(InitialBmi) == InitialBmi
  {
  }

  /** After a reset nothing is calculated until both fields are filled in again. */
  lemma CalculateAfterResetIsNoop(f: BmiForm)
    ensures CalculateBmi(ResetBmi(f)) == ResetBmi(f)
  {
  }
}

=== FILE: health_videos.dfy ===
/**
 * The `HealthVideos` component: the category filter over the catalogue,
 * the badge colour of a category, and the selected video of the player.
 */
module HealthVideos {
  import opened Wrappers
  import opened Seqs

  datatype Video = Video(id: string, title: string, description: string, duration: string,
                         category: string, thumbnail: string, youtubeId: string,
                         views: string, channel: string)

  /** The selected category and the video open in the player. */
  datatype Viewer = Viewer(selectedCategory: string, selectedVideo: Option<Video>)

  /** The category that bypasses the filter. */
  const AllCategories: string := "all"

  const InitialViewer: Viewer := Viewer(AllCategories, None)

  /** The filter of `filteredVideos`: keep the videos of one category. */
  function InCategory(category: string): Video -> bool {
    (v: Video) => v.category == category
  }

  /** `filteredVideos`: the whole catalogue for 'all'; otherwise exactly the
      videos of the selected category, in catalogue order, each as often as it occurs. */
  function FilteredVideos(catalogue: seq<Video>, selected: string): (r: seq<Video>)
    ensures selected == AllCategories ==> r == catalogue
    ensures selected != AllCategories ==>
      && (forall i :: 0 <= i < |r| ==> r[i].category == selected && r[i] in catalogue)
      && (forall i :: 0 <= i < |catalogue| && catalogue[i].category == selected ==> catalogue[i] in r)
      && IsSubsequence(r, catalogue)
      && (forall v :: multiset(r)[v] == if v.category == selected then multiset(catalogue)[v] else 0)
  {
    if selected == AllCategories then catalogue
    else
      FilterCountAll(catalogue, InCategory(selected));
      Filter(catalogue, InCategory(selected))
  }

  /** The page opens on the whole catalogue with no video playing. */
  lemma InitialViewerShowsAll(catalogue: seq<Video>)
    ensures FilteredVideos(catalogue, InitialViewer.selectedCategory) == catalogue
    ensures InitialViewer.selectedVideo == None
  {
  }

  /** A category no video has selects nothing. */
  lemma UnusedCategorySelectsNothing(catalogue: seq<Video>, selected: string)
    requires selected != AllCategories
    requires forall i :: 0 <= i < |catalogue| ==> catalogue[i].category != selected
    ensures FilteredVideos(catalogue, selected) == []
  {
  }

  /** Each video is kept exactly as often as it occurs in the catalogue, so
      the filter neither adds nor repeats a video. */
  lemma FilteredVideosKeepMultiplicity(catalogue: seq<Video>, selected: string, v: Video)
    requires selected != AllCategories
    ensures multiset(FilteredVideos(catalogue, selected))[v] ==
      if v.category == selected then multiset(catalogue)[v] else 0
  {
    FilterCount(catalogue, InCategory(selected), v);
  }

  /** A category button: the filter changes, the player does not. */
  function SelectCategory(w: Viewer, category: string): (r: Viewer)
    ensures r.selectedCategory == category && r.selectedVideo == w.selectedVideo
  {
    w.(selectedCategory := category)
  }

  /** The badge colours: `--health-excellent`, `--health-good`, `--primary`,
      `--health-critical`, and the secondary colour for everything else. */
  datatype Badge = Excellent | GoodHealth | Primary | CriticalHealth | Secondary

  /** `getCategoryColor`: the four known categories have colours of their
      own, every other string the secondary colour. */
  function CategoryColor(category: string): (b: Badge)
    ensures b == Secondary <==> category !in {"fitness", "nutrition", "mental", "heart"}
  {
    match category
    case "fitness" => Excellent
    case "nutrition" => GoodHealth
    case "mental" => Primary
    case "heart" => CriticalHealth
    case _ => Secondary
  }

  /** The four known categories get four different colours; any other
      category, 'all' among them, falls through to the secondary colour. */
  lemma CategoryColorDefault(category: string)
    ensures CategoryColor(category) == Secondary <==>
      category != "fitness" && category != "nutrition" && category != "mental" && category != "heart"
    ensures CategoryColor(AllCategories) == Secondary
  {
  }

  lemma CategoryColorsDistinct(a: string, b: string)
    requires CategoryColor(a) != Secondary && CategoryColor(b) != Secondary
    ensures CategoryColor(a) == CategoryColor(b) <==> a == b
  {
  }

  /** `playVideo`: the player opens on the video; the category stays. */
  function PlayVideo(w: Viewer, v: Video): (r: Viewer)
    ensures r.selectedVideo == Some(v) && r.selectedCategory == w.selectedCategory
  {
    w.(selectedVideo := Some(v))
  }

  /** `closeVideo`: the player closes; the category stays. */
  function CloseVideo(w: Viewer): (r: Viewer)
    ensures r.selectedVideo == None && r.selectedCategory == w.selectedCategory
  {
    w.(selectedVideo := None)
  }

  /** Closing undoes playing, whatever was playing before and whatever was played. */
  lemma CloseUndoesPlay(w: Viewer, v: Video)
    ensures CloseVideo(PlayVideo(w, v)) == CloseVideo(w)
    ensures PlayVideo(PlayVideo(w, v), v) == PlayVideo(w, v)
  {
  }
}

=== FILE: inputs.dfy ===
/** The numeric text fields of the two BMI forms. */
module Inputs {

  /** What `parseFloat` makes of a field's text; parsing itself is not modelled. */
  datatype Parsed = NotANumber | Num(v: real)

  /** A text field together with its parsed value. */
  datatype Entry = Entry(text: string, value: Parsed)

  /** The cleared field `''`, which `parseFloat` reads as NaN. */
  const Cleared: Entry := Entry("", NotANumber)

  /** The calculator's guard `!x || x <= 0` fails, so the value is usable,
      exactly when the parse is a number above zero: NaN and 0 are falsy. */
  predicate Positive(p: Parsed) {
    p.Num? && p.v > 0.0
  }
}

=== FILE: seqs.dfy ===
/**
 * `Array.prototype.filter` and the facts about it the list editors need:
 * it keeps order, keeps every match with its multiplicity, and adds nothing.
 */
module Seqs {

  /** `xs.filter(p)` */
  function Filter<T(==)>(xs: seq<T>, p: T -> bool): (r: seq<T>)
    ensures |r| <= |xs|
    ensures forall i :: 0 <= i < |r| ==> p(r[i]) && r[i] in xs
    ensures forall i :: 0 <= i < |xs| && p(xs[i]) ==> xs[i] in r
    ensures multiset(r) <= multiset(xs)
    ensures IsSubsequence(r, xs)
    decreases |xs|
  {
    assert |xs| > 0 ==> xs == [xs[0]] + xs[1..];
    if |xs| == 0 then []
    else
      var rest := Filter(xs[1..], p);
      if p(xs[0]) then
        assert ([xs[0]] + rest)[1..] == rest;
        [xs[0]] + rest
      else rest
  }

  /** `a` is `b` with some entries deleted and the rest in their original order. */
  predicate IsSubsequence<T(==)>(a: seq<T>, b: seq<T>)
    decreases |b|
  {
    || |a| == 0
    || (|b| > 0 && if a[0] == b[0] then IsSubsequence(a[1..], b[1..]) else IsSubsequence(a, b[1..]))
  }

  /** Every relation `rel` holds between an entry and every later entry. */
  ghost predicate Pairwise<T>(xs: seq<T>, rel: (T, T) -> bool) {
    forall i, j :: 0 <= i < j < |xs| ==> rel(xs[i], xs[j])
  }

  /** Filtering keeps every entry that satisfies `p` as often as it occurs,
      and drops every other entry entirely. */
  lemma {:induction false} FilterCount<T>(xs: seq<T>, p: T -> bool, x: T)
    ensures multiset(Filter(xs, p))[x] == if p(x) then multiset(xs)[x] else 0
    decreases |xs|
  {
    if |xs| > 0 {
      FilterCount(xs[1..], p, x);
      assert xs == [xs[0]] + xs[1..];
      assert multiset(xs) == multiset([xs[0]]) + multiset(xs[1..]);
      if p(xs[0]) {
        assert Filter(xs, p) == [xs[0]] + Filter(xs[1..], p);
        assert multiset(Filter(xs, p)) == multiset([xs[0]]) + multiset(Filter(xs[1..], p));
      } else {
        assert Filter(xs, p) == Filter(xs[1..], p);
      }
    }
  }

  /** `FilterCount` for every value at once. */
  lemma FilterCountAll<T>(xs: seq<T>, p: T -> bool)
    ensures forall x :: multiset(Filter(xs, p))[x] == if p(x) then multiset(xs)[x] else 0
  {
    forall x
      ensures multiset(Filter(xs, p))[x] == if p(x) then multiset(xs)[x] else 0
    {
      FilterCount(xs, p, x);
    }
  }

  /** Filtering out exactly one value removes all its copies and nothing else. */
  lemma FilterMultiset<T>(xs: seq<T>, p: T -> bool, x: T)
    requires !p(x)
    requires forall y :: y != x ==> p(y)
    ensures multiset(Filter(xs, p)) == multiset(xs)[x := 0]
  {
    forall y
      ensures multiset(Filter(xs, p))[y] == multiset(xs)[x := 0][y]
    {
      FilterCount(xs, p, y);
    }
  }

  /** Dropping the first entry keeps a pairwise relation. */
  lemma PairwiseTail<T>(xs: seq<T>, rel: (T, T) -> bool)
    requires |xs| > 0 && Pairwise(xs, rel)
    ensures Pairwise(xs[1..], rel)
  {
    var rest := xs[1..];
    forall i, j | 0 <= i < j < |rest|
      ensures rel(rest[i], rest[j])
    {
      assert rest[i] == xs[i + 1] && rest[j] == xs[j + 1];
    }
  }

  /** Putting in front an entry related to every entry keeps a pairwise relation. */
  lemma ConsKeepsPairwise<T>(x: T, ys: seq<T>, rel: (T, T) -> bool)
    requires Pairwise(ys, rel)
    requires forall j :: 0 <= j < |ys| ==> rel(x, ys[j])
    ensures Pairwise([x] + ys, rel)
  {
    var r := [x] + ys;
    forall i, j | 0 <= i < j < |r|
      ensures rel(r[i], r[j])
    {
      if i == 0 {
        assert r[j] == ys[j - 1];
      } else {
        assert r[i] == ys[i - 1] && r[j] == ys[j - 1];
      }
    }
  }

  /** A relation that holds pairwise in a list still holds after filtering. */
  lemma {:induction false} FilterKeepsPairwise<T>(xs: seq<T>, p: T -> bool, rel: (T, T) -> bool)
    requires Pairwise(xs, rel)
    ensures Pairwise(Filter(xs, p), rel)
    decreases |xs|
  {
    if |xs| > 0 {
      var rest := xs[1..];
      PairwiseTail(xs, rel);
      FilterKeepsPairwise(rest, p, rel);
      var f := Filter(rest, p);
      if p(xs[0]) {
        forall j | 0 <= j < |f|
          ensures rel(xs[0], f[j])
        {
          var k :| 0 <= k < |rest| && rest[k] == f[j];
          assert xs[k + 1] == f[j];
        }
        ConsKeepsPairwise(xs[0], f, rel);
      }
    }
  }

  /** Every entry satisfies `P`. */
  ghost predicate All<T>(xs: seq<T>, P: T -> bool) {
    forall i :: 0 <= i < |xs| ==> P(xs[i])
  }

  /** Appending an entry that satisfies `P` keeps every entry satisfying it. */
  lemma AppendKeepsAll<T>(xs: seq<T>, y: T, P: T -> bool)
    requires All(xs, P) && P(y)
    ensures All(xs + [y], P)
  {
    var r := xs + [y];
    forall i | 0 <= i < |r|
      ensures P(r[i])
    {
      if i < |xs| {
        assert r[i] == xs[i];
      }
    }
  }

  /** Filtering keeps every entry satisfying `P`. */
  lemma FilterKeepsAll<T>(xs: seq<T>, p: T -> bool, P: T -> bool)
    requires All(xs, P)
    ensures All(Filter(xs, p), P)
  {
    var r := Filter(xs, p);
    forall i | 0 <= i < |r|
      ensures P(r[i])
    {
      var k :| 0 <= k < |xs| && xs[k] == r[i];
    }
  }

  /** Appending an entry that relates to every entry already present keeps the relation pairwise. */
  lemma AppendKeepsPairwise<T>(xs: seq<T>, y: T, rel: (T, T) -> bool)
    requires Pairwise(xs, rel)
    requires forall x :: x in xs ==> rel(x, y)
    ensures Pairwise(xs + [y], rel)
  {
    var r := xs + [y];
    forall i, j | 0 <= i < j < |r|
      ensures rel(r[i], r[j])
    {
      if j == |xs| {
        assert r[i] in xs;
      } else {
        assert r[i] == xs[i] && r[j] == xs[j];
      }
    }
  }

  /** Filtering distributes over concatenation. */
  lemma {:induction false} FilterAppend<T>(xs: seq<T>, ys: seq<T>, p: T -> bool)
    ensures Filter(xs + ys, p) == Filter(xs, p) + Filter(ys, p)
    decreases |xs|
  {
    if |xs| > 0 {
      var zs := xs + ys;
      assert zs[0] == xs[0] && zs[1..] == xs[1..] + ys;
      FilterAppend(xs[1..], ys, p);
      if p(xs[0]) {
        assert Filter(zs, p) == [xs[0]] + Filter(xs[1..] + ys, p);
        assert Filter(xs, p) == [xs[0]] + Filter(xs[1..], p);
      } else {
        assert Filter(zs, p) == Filter(xs[1..] + ys, p);
        assert Filter(xs, p) == Filter(xs[1..], p);
      }
    } else {
      assert xs + ys == ys;
    }
  }

  /** A filter every entry passes returns the list unchanged. */
  lemma {:induction false} FilterAllPass<T>(xs: seq<T>, p: T -> bool)
    requires forall i :: 0 <= i < |xs| ==> p(xs[i])
    ensures Filter(xs, p) == xs
    decreases |xs|
  {
    if |xs| > 0 {
      FilterAllPass(xs[1..], p);
    }
  }
}

=== FILE: symptom_predictor.dfy ===
/**
 * The `SymptomPredictor` component: a list of symptom records edited by
 * name (ignoring case) and by id, an analysis step guarded against an empty
 * list, and the colour of a predicted condition's severity.
 */
module SymptomPredictor {
  import opened Text
  import opened Seqs

  datatype Symptom = Symptom(id: string, name: string, severity: int)

  datatype Level = Low | Medium | High

  datatype Medication = Medication(name: string, dosage: string, frequency: string)

  /** A predicted condition; a prediction without medications has an empty list. */
  datatype Prediction = Prediction(condition: string, probability: int, severity: Level,
                                   recommendations: seq<string>, medications: seq<Medication>)

  /** The list, the text box, the shown predictions and the analysing flag. */
  datatype Predictor = Predictor(symptoms: seq<Symptom>, current: string, predictions: seq<Prediction>, analyzing: bool)

  const InitialPredictor: Predictor := Predictor([], "", [], false)

  /** The severity a new symptom starts with, the middle of the 1..10 slider. */
  const DefaultSeverity: int := 5

  function NamesDiffer(a: Symptom, b: Symptom): bool {
    !SameIgnoringCase(a.name, b.name)
  }

  function IdsDiffer(a: Symptom, b: Symptom): bool {
    a.id != b.id
  }

  /** No two symptoms have names equal ignoring case. */
  ghost predicate CaseDistinct(xs: seq<Symptom>) {
    Pairwise(xs, NamesDiffer)
  }

  /** No two symptoms share an id. */
  ghost predicate IdsDistinct(xs: seq<Symptom>) {
    Pairwise(xs, IdsDiffer)
  }

  /** Some listed symptom has this name, ignoring case (`symptoms.find(...)` is truthy). */
  predicate Listed(xs: seq<Symptom>, name: string) {
    exists i :: 0 <= i < |xs| && SameIgnoringCase(xs[i].name, name)
  }

  /** `addSymptom(name)` with `id` the fresh timestamp: an empty name or one
      already listed ignoring case changes nothing; otherwise the symptom is
      appended with the default severity and the text box is cleared. */
  function AddSymptom(st: Predictor, name: string, id: string): (r: Predictor)
    ensures name == "" || Listed(st.symptoms, name) ==> r == st
    ensures name != "" && !Listed(st.symptoms, name) ==>
      && r.symptoms == st.symptoms + [Symptom(id, name, DefaultSeverity)]
      && r.current == ""
      && r.predictions == st.predictions && r.analyzing == st.analyzing
  {
    if name != "" && !Listed(st.symptoms, name) then
      st.(symptoms := st.symptoms + [Symptom(id, name, DefaultSeverity)], current := "")
    else st
  }

  /** The filter of `removeSymptom`: keep the entries with another id. */
  function OtherId(id: string): Symptom -> bool {
    (s: Symptom) => s.id != id
  }

  /** `removeSymptom(id)`: exactly the entries with that id go; the others
      stay, in order. */
  function RemoveSymptom(st: Predictor, id: string): (r: Predictor)
    ensures forall i :: 0 <= i < |r.symptoms| ==> r.symptoms[i].id != id
    ensures forall i :: 0 <= i < |st.symptoms| && st.symptoms[i].id != id ==> st.symptoms[i] in r.symptoms
    ensures IsSubsequence(r.symptoms, st.symptoms)
    ensures forall x :: multiset(r.symptoms)[x] == if x.id != id then multiset(st.symptoms)[x] else 0
    ensures r.current == st.current && r.predictions == st.predictions && r.analyzing == st.analyzing
  {
    FilterCountAll(st.symptoms, OtherId(id));
    st.(symptoms := Filter(st.symptoms, OtherId(id)))
  }

  /** Removing by id keeps every other record exactly as often as it occurred
      and drops every record with the id. */
  lemma RemoveSymptomKeepsMultiplicity(st: Predictor, id: string, x: Symptom)
    ensures multiset(RemoveSymptom(st, id).symptoms)[x] == if x.id != id then multiset(st.symptoms)[x] else 0
  {
    FilterCount(st.symptoms, OtherId(id), x);
  }

  /** The `map` of `updateSeverity`: entries with the id get the new severity. */
  function SetSeverity(xs: seq<Symptom>, id: string, severity: int): (r: seq<Symptom>)
    ensures |r| == |xs|
    ensures forall i :: 0 <= i < |xs| ==> r[i].id == xs[i].id && r[i].name == xs[i].name
    ensures forall i :: 0 <= i < |xs| ==> r[i].severity == if xs[i].id == id then severity else xs[i].severity
    decreases |xs|
  {
    if |xs| == 0 then []
    else
      var head := if xs[0].id == id then xs[0].(severity := severity) else xs[0];
      [head] + SetSeverity(xs[1..], id, severity)
  }

  /** `updateSeverity(id, severity)`: the list keeps its length, order, ids and
      names; only entries with the id change, and only in severity. */
  function UpdateSeverity(st: Predictor, id: string, severity: int): (r: Predictor)
    ensures |r.symptoms| == |st.symptoms|
    ensures forall i :: 0 <= i < |st.symptoms| ==>
      && r.symptoms[i].id == st.symptoms[i].id
      && r.symptoms[i].name == st.symptoms[i].name
      && (st.symptoms[i].id != id ==> r.symptoms[i] == st.symptoms[i])
      && (st.symptoms[i].id == id ==> r.symptoms[i].severity == severity)
    ensures r.current == st.current && r.predictions == st.predictions && r.analyzing == st.analyzing
  {
    st.(symptoms := SetSeverity(st.symptoms, id, severity))
  }

  /** The component opens with an empty list, which meets both invariants. */
  lemma InitialPredictorDistinct()
    ensures CaseDistinct(InitialPredictor.symptoms) && IdsDistinct(InitialPredictor.symptoms)
  {
  }

  /** Adding keeps names distinct ignoring case. */
  lemma AddKeepsCaseDistinct(st: Predictor, name: string, id: string)
    requires CaseDistinct(st.symptoms)
    ensures CaseDistinct(AddSymptom(st, name, id).symptoms)
  {
    if name != "" && !Listed(st.symptoms, name) {
      var s := Symptom(id, name, DefaultSeverity);
      forall x | x in st.symptoms
        ensures NamesDiffer(x, s)
      {
        var i :| 0 <= i < |st.symptoms| && st.symptoms[i] == x;
      }
      AppendKeepsPairwise(st.symptoms, s, NamesDiffer);
    }
  }

  /** Adding under an id no listed symptom has keeps ids distinct; the
      timestamp ids the component uses collide only within one millisecond. */
  lemma AddKeepsIdsDistinct(st: Predictor, name: string, id: string)
    requires IdsDistinct(st.symptoms)
    requires forall i :: 0 <= i < |st.symptoms| ==> st.symptoms[i].id != id
    ensures IdsDistinct(AddSymptom(st, name, id).symptoms)
  {
    if name != "" && !Listed(st.symptoms, name) {
      var s := Symptom(id, name, DefaultSeverity);
      forall x | x in st.symptoms
        ensures IdsDiffer(x, s)
      {
        var i :| 0 <= i < |st.symptoms| && st.symptoms[i] == x;
      }
      AppendKeepsPairwise(st.symptoms, s, IdsDiffer);
    }
  }

  /** Removing keeps names distinct ignoring case and ids distinct. */
  lemma RemoveKeepsDistinct(st: Predictor, id: string)
    ensures CaseDistinct(st.symptoms) ==> CaseDistinct(RemoveSymptom(st, id).symptoms)
    ensures IdsDistinct(st.symptoms) ==> IdsDistinct(RemoveSymptom(st, id).symptoms)
  {
    if CaseDistinct(st.symptoms) {
      FilterKeepsPairwise(st.symptoms, OtherId(id), NamesDiffer);
    }
    if IdsDistinct(st.symptoms) {
      FilterKeepsPairwise(st.symptoms, OtherId(id), IdsDiffer);
    }
  }

  /** Changing a severity keeps names distinct ignoring case and ids distinct. */
  lemma UpdateKeepsDistinct(st: Predictor, id: string, severity: int)
    ensures CaseDistinct(st.symptoms) ==> CaseDistinct(UpdateSeverity(st, id, severity).symptoms)
    ensures IdsDistinct(st.symptoms) ==> IdsDistinct(UpdateSeverity(st, id, severity).symptoms)
  {
    var xs, r := st.symptoms, UpdateSeverity(st, id, severity).symptoms;
    forall i, j | 0 <= i < j < |r|
      ensures NamesDiffer(r[i], r[j]) == NamesDiffer(xs[i], xs[j])
      ensures IdsDiffer(r[i], r[j]) == IdsDiffer(xs[i], xs[j])
    {
    }
  }

  /** A later severity overrides an earlier one for the same id. */
  lemma {:induction false} SeverityLastWins(xs: seq<Symptom>, id: string, a: int, b: int)
    ensures SetSeverity(SetSeverity(xs, id, a), id, b) == SetSeverity(xs, id, b)
    decreases |xs|
  {
    if |xs| > 0 {
      SeverityLastWins(xs[1..], id, a, b);
      assert SetSeverity(xs, id, a)[1..] == SetSeverity(xs[1..], id, a);
    }
  }

  /** Removing an id erases every severity change made to it. */
  lemma {:induction false} RemoveForgetsSeverity(xs: seq<Symptom>, id: string, severity: int)
    ensures Filter(SetSeverity(xs, id, severity), OtherId(id)) == Filter(xs, OtherId(id))
    decreases |xs|
  {
    if |xs| > 0 {
      RemoveForgetsSeverity(xs[1..], id, severity);
      assert SetSeverity(xs, id, severity)[1..] == SetSeverity(xs[1..], id, severity);
    }
  }

  /** `analyzSymptoms` up to the timer: nothing happens on an empty list;
      otherwise the analysing flag is raised and nothing else changes. */
  function StartAnalysis(st: Predictor): (r: Predictor)
    ensures |st.symptoms| == 0 ==> r == st
    ensures |st.symptoms| > 0 ==> r.analyzing && r.(analyzing := st.analyzing) == st
  {
    if |st.symptoms| == 0 then st else st.(analyzing := true)
  }

  /** The timer firing: the predictions are shown and the flag lowered. */
  function FinishAnalysis(st: Predictor, predictions: seq<Prediction>): (r: Predictor)
    ensures r.predictions == predictions && !r.analyzing
    ensures r.symptoms == st.symptoms && r.current == st.current
  {
    st.(predictions := predictions, analyzing := false)
  }

  /** The status classes `status-good`, `status-warning`, `status-critical`. */
  datatype Status = Good | Warning | Critical

  function LevelRank(l: Level): nat {
    match l
    case Low => 0
    case Medium => 1
    case High => 2
  }

  function StatusRank(s: Status): nat {
    match s
    case Good => 0
    case Warning => 1
    case Critical => 2
  }

  /** `getSeverityColor`: the status sits at the same position of its scale
      as the level does of its own. */
  function SeverityColor(l: Level): (s: Status)
    ensures StatusRank(s) == LevelRank(l)
  {
    match l
    case Low => Good
    case Medium => Warning
    case High => Critical
  }

  /** The colour is a faithful picture of the severity: a graver level never
      gets a milder colour, and different levels get different colours. */
  lemma SeverityColorOrderPreserving(a: Level, b: Level)
    ensures LevelRank(a) <= LevelRank(b) <==> StatusRank(SeverityColor(a)) <= StatusRank(SeverityColor(b))
    ensures SeverityColor(a) == SeverityColor(b) <==> a == b
  {
  }
}

=== FILE: text.dfy ===
/**
 * The two string operations the symptom editors rely on: JavaScript's
 * `String.prototype.trim` and a case fold standing in for `toLowerCase`.
 */
module Text {

  /** The WhiteSpace and LineTerminator code points that `trim` strips
      (section 12.2 and 12.3 of ECMA-262). */
  predicate IsSpace(c: char) {
    || c == '\t' || c == '\n' || c == '\U{000B}' || c == '\U{000C}' || c == '\r'
    || c == ' ' || c == '\U{00A0}' || c == '\U{1680}'
    || ('\U{2000}' <= c <= '\U{200A}')
    || c == '\U{2028}' || c == '\U{2029}' || c == '\U{202F}' || c == '\U{205F}'
    || c == '\U{3000}' || c == '\U{FEFF}'
  }

  /** Drops the leading white space: the result is the longest suffix of `s`
      that does not start with white space. */
  function TrimStart(s: string): (r: string)
    ensures |r| <= |s| && r == s[|s| - |r|..]
    ensures forall i :: 0 <= i < |s| - |r| ==> IsSpace(s[i])
    ensures |r| > 0 ==> !IsSpace(r[0])
    decreases |s|
  {
    if |s| > 0 && IsSpace(s[0]) then TrimStart(s[1..]) else s
  }

  /** Drops the trailing white space: the result is the longest prefix of `s`
      that does not end with white space. */
  function TrimEnd(s: string): (r: string)
    ensures |r| <= |s| && r == s[..|r|]
    ensures forall i :: |r| <= i < |s| ==> IsSpace(s[i])
    ensures |r| > 0 ==> !IsSpace(r[|r| - 1])
    decreases |s|
  {
    if |s| > 0 && IsSpace(s[|s| - 1]) then TrimEnd(s[..|s| - 1]) else s
  }

  /** `s.trim()` */
  function Trim(s: string): (r: string)
    ensures |r| <= |s|
    ensures var i := |s| - |TrimStart(s)|;
      && i + |r| <= |s|
      && r == s[i..i + |r|]
      && (forall k :: 0 <= k < i ==> IsSpace(s[k]))
      && (forall k :: i + |r| <= k < |s| ==> IsSpace(s[k]))
    ensures |r| > 0 ==> !IsSpace(r[0]) && !IsSpace(r[|r| - 1])
  {
    var t := TrimStart(s);
    PrefixOfSuffix(s, t, TrimEnd(t));
    TrimEnd(t)
  }

  /** A prefix `r` of a suffix `t` of `s` is a slice of `s`; what follows it in
      `t` is what follows it in `s`. */
  lemma PrefixOfSuffix(s: string, t: string, r: string)
    requires |t| <= |s| && t == s[|s| - |t|..]
    requires |r| <= |t| && r == t[..|r|]
    requires forall j :: |r| <= j < |t| ==> IsSpace(t[j])
    ensures var i := |s| - |t|;
      && r == s[i..i + |r|]
      && (forall k :: i + |r| <= k < |s| ==> IsSpace(s[k]))
  {
    var i := |s| - |t|;
    forall k | i + |r| <= k < |s|
      ensures IsSpace(s[k])
    {
      assert s[k] == t[k - i];
    }
  }

  /** A string is blank, so that `!s.trim()` holds, exactly when every
      character of it is white space. */
  lemma BlankIffAllSpace(s: string)
    ensures Trim(s) == "" <==> forall i :: 0 <= i < |s| ==> IsSpace(s[i])
  {
  }

  /** Trimming twice is trimming once. */
  lemma TrimIdempotent(s: string)
    ensures Trim(Trim(s)) == Trim(s)
  {
    var t := Trim(s);
    if |t| > 0 {
      assert TrimStart(t) == t;
      assert TrimEnd(t) == t;
    }
  }

  /** ASCII upper-case letters map to lower case, every other character to itself. */
  function LowerChar(c: char): (d: char)
    ensures 'A' <= c <= 'Z' ==> d as int == c as int + 32
    ensures !('A' <= c <= 'Z') ==> d == c
  {
    if 'A' <= c <= 'Z' then (c as int + 32) as char else c
  }

  /** `s.toLowerCase()`, restricted to the ASCII letters. */
  function Lower(s: string): (r: string)
    ensures |r| == |s|
    ensures forall i :: 0 <= i < |s| ==> r[i] == LowerChar(s[i])
  {
    seq(|s|, i requires 0 <= i < |s| => LowerChar(s[i]))
  }

  /** Two strings name the same thing when they are equal ignoring case. */
  predicate SameIgnoringCase(a: string, b: string) {
    Lower(a) == Lower(b)
  }
}

=== FILE: wrappers.dfy ===
/** The nullable values of the application (`BMIResult | null`, `HealthVideo | null`). */
module Wrappers {

  datatype Option<+T> = None | Some(value: T)

}
